=== FILE: README.md ===
# Undo manager model

A Dafny model of `UndoManager`, the linear undo/redo history of the editor
(`src/common/UndoManager.js`). The manager listens to a tree-item provider. Each
notification the provider raises (a child added, a child removed, property values
changed) becomes one history entry. `undo` and `redo` move a cursor over the
history and replay one entry against the provider's document. While a transaction
is open (`startGrouping` … `stopGrouping`), property changes are coalesced into a
per-node buffer, and closing the transaction pushes the buffer as one entry.

Files and modules:

- `graph.dfy`, module `Graphs`: the provider's document as a value. Each node has
  an ordered children list and a property map. The provider's three primitives,
  `deleteChild`, `appendChild` and `setPropertyValues`, are modelled as pure
  updates (`DeleteChild`, `AppendChild`, `SetProps`).
- `commands.dfy`, module `Commands`: the history entries as data (`Add`, `Remove`,
  `Prop`, `Group`) instead of closures. `ApplyUndo` and `ApplyRedo` give the
  document after an entry's undo or redo. `Change` and `Perform` describe what the
  editor did before the notification arrived. An insertion has an index, because
  the editor inserts new pages, layers and shapes at the front of a list
  (`src/metadoc/Editor1.js:212`). The module proves when undo, and redo after
  undo, give back the document exactly.
- `grouper.dfy`, module `Grouper`: the transaction buffer. It covers recording one
  change (`Record`), the key-by-key merge loop (`MergeKeys`), and what undo and redo
  of the resulting group do to the document.
- `histories.dfy`, module `Histories`: whole histories of changes, transactions
  included. It proves what undoing all entries and redoing all of them does.
- `undo_manager.dfy`, module `History`: the class `UndoManager` with the source's
  fields `stack`, `current`, `locked`, `grouping` and `groups`. `doc` stands for
  the document of the provider the manager is bound to. The three handlers,
  `Undo`, `Redo`, `StartGrouping` and `StopGrouping` are methods that update these
  fields.
  - During a replay, the provider re-raises notifications. `Dispatch` delivers them
    to the handlers while `locked` is set, which shows that the guard keeps them
    out of the history.
  - Module `Walkthrough` steps a manager through add / edit / undo / redo /
    truncate scenarios and through one transaction (`GroupScenario`: two changes of
    one node between `StartGrouping` and `StopGrouping` become a single group
    entry). Most start from concrete documents; `TruncateScenario` and
    `GroupScenario` start from any document.

The class invariant `Valid()` is `-1 <= current < |stack|`, plus "the buffer holds
at most one entry per node".

### Behaviours worth knowing

- Undoing a removal does not put the child back where it was. Line 33 re-inserts
  it with `appendChild`, so it always goes at the end of the parent's list.
  `Commands.UndoRemoveRestoresIffLast` proves that the document comes back exactly
  when the child was already last. `Commands.UndoRemoveReorders` shows a case
  where it does not.
- Redoing an undone add does not put the child back where it was either. Line 20
  appends it, while the editor inserts children at the front
  (`src/metadoc/Editor1.js:212`). `Commands.RedoAfterUndo` proves that redo after
  undo gives back the edited document for every removal and property change. For
  an insertion it holds exactly when the child was inserted at the end.
  `Commands.RedoInsertReorders` and `Walkthrough.InsertFrontScenario` show a front
  insertion coming back at the end. Undo of an insertion, at any index, does
  restore the document (`Commands.UndoAfterEdit`).
- Starting a transaction while one is open is not refused. Lines 103-104 drop the
  open buffer and start a new one. See `History.UndoManager.StartGrouping`.
- Undoing a transaction restores only the old values of each node's first change
  (lines 46-53). Keys that first appear in a later change of the same node are
  merged into the new values and are never restored (lines 55-57).
  `Grouper.LateKeyKept` proves this for all inputs. `Grouper.GroupUndoLeavesLateKey`
  is a concrete instance. Redo after such an undo still gives back the document at
  the end of the transaction, late keys included (`Grouper.TransactionRedoAfterUndo`,
  `Grouper.GroupRedoAfterUndoEndValues`).
- `stopGrouping` pushes an entry even when the buffer is empty (lines 110-120). See
  `History.UndoManager.StopGrouping`.

## Model

| member | source | states |
|---|---|---|
| History.UndoManager.constructor | src/common/UndoManager.js:4-7 | A new manager has an empty history, the cursor at -1, no lock and no open transaction. |
| History.UndoManager.Push | src/common/UndoManager.js:14-24 | Recording drops every entry after the cursor, appends exactly one entry and moves the cursor onto it, so the cursor stays between -1 and the last entry. |
| History.UndoManager.OnStructureAdded | src/common/UndoManager.js:11-26 | While locked, nothing changes. Otherwise the redo branch is cut, one `Add(parent, child)` entry is appended and the cursor is on it. |
| History.UndoManager.OnStructureRemoved | src/common/UndoManager.js:27-42 | While locked, nothing changes. Otherwise the redo branch is cut, one `Remove(parent, child)` entry is appended and the cursor is on it. |
| History.UndoManager.OnPropertyChanged | src/common/UndoManager.js:43-70 | While locked, nothing changes. Inside a transaction, the history is untouched and the buffer becomes `Record(buffer, change)`. Otherwise one `Prop` entry is pushed. The buffer keeps one entry per node. |
| History.UndoManager.Notify | src/common/UndoManager.js:11-12 | Delivering any notification while locked leaves the history, cursor and buffer unchanged (the same check is at lines 28 and 44). |
| History.UndoManager.Dispatch | src/common/UndoManager.js:79-84 | The notifications the provider raises during a replay all arrive under the lock, so none of them is recorded. |
| History.UndoManager.Undo | src/common/UndoManager.js:74-85 | With the cursor below 0 it is a no-op. Otherwise the document becomes the undo of the entry at the cursor, the cursor drops by one, the history and buffer are unchanged, and the lock is released. |
| History.UndoManager.Redo | src/common/UndoManager.js:86-97 | With no entry after the cursor it is a no-op. Otherwise the cursor moves up by one, the document becomes the redo of the entry now at the cursor, the history is unchanged, and the lock is released. |
| History.UndoManager.StartGrouping | src/common/UndoManager.js:102-105 | Opens a transaction with an empty buffer, also when one is already open. |
| History.UndoManager.StopGrouping | src/common/UndoManager.js:106-122 | Closes the transaction and empties the buffer. Cuts the redo branch and pushes exactly one `Group` entry holding the old buffer, even an empty one. The cursor moves onto it. |
| Grouper.Record | src/common/UndoManager.js:45-58 | A node's first change is stored as it came. A later change keeps the stored old values and overrides the stored new values key by key. Other nodes' entries and the one-entry-per-node property are kept. |
| Grouper.Update | src/common/UndoManager.js:55-57 | Replacing a node's entry in place keeps the set of nodes, keeps one entry per node, and changes only that node's entry. |
| Grouper.MergeKeys | src/common/UndoManager.js:55-57 | The merged map has the keys of both maps. Incoming values win; stored values remain for the other keys. |
| Grouper.Buffer | src/common/UndoManager.js:45-58 | The buffer built from any sequence of changes has at most one entry per node. |
| Grouper.BufferEntry | src/common/UndoManager.js:45-58 | After any transaction, the buffer entry of a node is the independent reference `EntryOf`: absent if no change touched the node, otherwise the first change's old values with all its changes' new values merged in order. |
| Grouper.TransactionRedo | src/common/UndoManager.js:115-117 | Redoing the group a transaction leaves behind gives the same document as applying every change of the transaction in order. |
| Grouper.TransactionEndAt | src/common/UndoManager.js:45-58 | At the end of a transaction, a touched node carries its starting values overridden by the merged new values of its changes. |
| Grouper.TransactionUndoAt | src/common/UndoManager.js:112-114 | Undoing the group leaves the structure alone and writes back on each touched node only the old values of its first change. |
| Grouper.TransactionUndoRestores | src/common/UndoManager.js:45-58 | If every later change of a node touches only keys its first change touched, undoing the group gives back exactly the document as it was when the transaction opened. |
| Grouper.LateKeyKept | src/common/UndoManager.js:55-57 | A key that a node's first change in the transaction does not list keeps, after undo, the last value the transaction wrote. |
| Grouper.GroupUndoLeavesLateKey | src/common/UndoManager.js:46-57 | Concrete case: changes {a: 0→1} then {a: 1→2, b: 0→5} on one node. After undo, b is 5, not the 0 it had before the transaction. |
| Grouper.BufferKeysCover | src/common/UndoManager.js:45-58 | If every change of a transaction lists new values for at least the keys it lists old values for, so does every entry of the buffer. |
| Grouper.TransactionRedoAfterUndo | src/common/UndoManager.js:112-117 | Under that condition, redo after undo of a transaction's group gives back the document as it was at the end of the transaction, keys that first appeared in a later change included. |
| Grouper.GroupRedoAfterUndoEndValues | src/common/UndoManager.js:112-117 | Concrete case: in the transaction above, redo after undo gives the node a = 2 and b = 5, its values at the end of the transaction. |
| Commands.ApplyUndo | src/common/UndoManager.js:16-18 | Also models the undo closures at lines 32-34, 50, 62 and 112-114. Undo of `Add` takes the child out of every list; every other child stays in the lists it was in, and all properties are kept. Undo of `Remove` appends the child to its parent's list and leaves the other lists and all properties alone. Undo of `Prop` writes the old values over the node's properties and leaves the structure and other nodes alone. Undo of `Group` leaves the structure and every node outside the group alone. |
| Commands.ApplyRedo | src/common/UndoManager.js:19-21 | Also models the redo closures at lines 35-37, 51, 63 and 115-117. Redo of `Add` appends the child to its parent's list and leaves the other lists and all properties alone. Redo of `Remove` takes the child out of every list; every other child stays in the lists it was in, and all properties are kept. Redo of `Prop` writes the new values over the node's properties and leaves the structure and other nodes alone. Redo of `Group` leaves the structure and every node outside the group alone. |
| Commands.ReplayEach | src/common/UndoManager.js:112-117 | Running every buffered entry's undo or redo in turn leaves the structure unchanged and leaves every node outside the buffer unchanged. |
| Commands.GroupRedoTwice | src/common/UndoManager.js:115-117 | Redoing the same group twice gives the same document as redoing it once. |
| Commands.GroupEffectAt | src/common/UndoManager.js:112-117 | Replaying a group leaves the structure unchanged. Each node gets its own entry's values on top of what it had, so the order of the entries does not matter. |
| Commands.UndoAfterEdit | src/common/UndoManager.js:16-18 | For a truthfully notified insertion, at any index of the parent's list, or property change, undo gives back the document as it was before the change. |
| Commands.UndoRemoveRestoresIffLast | src/common/UndoManager.js:32-37 | Undo of a truthfully recorded removal gives back the document if and only if the removed child was its parent's last child. |
| Commands.UndoRemoveReorders | src/common/UndoManager.js:33 | Concrete case: removing A from [A, B] and undoing gives [B, A], not the original document. |
| Commands.RedoAfterUndo | src/common/UndoManager.js:16-37 | For every truthfully notified change outside a transaction, redo after undo gives back the document as it was after the change if and only if the change is not an insertion before the end of the list. Removals and property changes always come back; insertions come back only when made at the end. |
| Commands.RedoInsertIffEnd | src/common/UndoManager.js:16-21 | Undo then redo of an insertion gives back the edited document exactly when the child was inserted at the end of its parent's list. |
| Commands.RedoInsertReorders | src/common/UndoManager.js:20 | Concrete case: C inserted at the front of [X], then undone and redone, gives [X, C], not [C, X]. |
| Commands.GroupRedoAfterUndo | src/common/UndoManager.js:112-117 | When every entry of a group redoes at least the keys it undoes, redo after undo of the group equals its redo. |
| Histories.UndoStep | src/common/UndoManager.js:74-85 | Undoing the entry recorded for one change gives back the document before it. This covers an insertion at any index, a removal of the last child, a property change, and a transaction whose later changes touch only keys the first change of each node touched. |
| Histories.RedoStep | src/common/UndoManager.js:86-97 | Redoing the entry recorded for any change, a transaction included, reproduces the change, provided an insertion was at the end. |
| Histories.UndoAllRestores | src/common/UndoManager.js:74-85 | Undoing every entry of such a history, transactions and front insertions included, returns to the document it started from. |
| Histories.RedoAllReproduces | src/common/UndoManager.js:86-97 | Redoing every entry of any history from its start reproduces the document after the last change, when every insertion was at the end of its list. |
| Histories.UndoAllRedoAll | src/common/UndoManager.js:74-97 | For a history of insertions at the end, removals of the last child, property changes and transactions as above: undoing everything returns to the start, and redoing everything afterwards comes back to the document after the last change. |
## Left out

- Event subscription (`prov.on`, lines 8, 11, 27, 43): the handlers are methods taking the event payload directly, and `Notify` stands in for the provider's dispatch.
- The STRUCTURE_CHANGED handler (lines 8-10): its body is empty.
- `dump`, `console.log` and the entries' `toString` labels (lines 22, 38, 52, 64, 76, 80, 88, 93, 98-101, 118). They only write diagnostics, except in the case of an undefined buffer described below.
- The provider and its document graph are outside this model. `deleteChild`, `appendChild`, `setPropertyValues` and the editor's `insertElement` are pure functions. `deleteChild` takes the child out of whichever list holds it. `setPropertyValues` overwrites exactly the given keys. The provider raises one notification per change.
- `Commands.Perform` takes an insertion index past the end of the list as the end. The lemmas only speak of insertions at an index within the list.
- Node ids, property keys and property values are strings. Property keys and values are only copied; node ids are also used as property names of a plain object, the buffer (lines 46-47, 56, 104).
- `History.UndoManager.OnPropertyChanged`: the model assumes a node id never names a member that every plain object inherits, such as `constructor` or `toString`. For such an id, `!this.groups[id]` at line 46 is already false on the node's first change in a transaction, so line 56 writes into the inherited function's missing `newValues` and throws a TypeError. The model instead records that first change as a new buffer entry.
- An absent old value (JavaScript `undefined`) has no representation: a key missing from `oldValues` is simply not written back on undo.
- `History.UndoManager.constructor`: the source leaves `groups` undefined until the first `startGrouping`; the model starts with an empty buffer instead. In the source, a `stopGrouping` before any `startGrouping` pushes a group over `undefined` and then fails:
  - The `dump()` at line 121 joins the stack. That calls the new entry's `toString`, which evaluates `Object.values(undefined)` (line 118) and throws, so `stopGrouping` itself throws after the push.
  - Every later `dump()` throws the same way while that entry is in the stack.
  - Undoing or redoing that group entry itself throws inside its closure, at `Object.values(undefined)` on line 113 or 116, so at line 81 or 94. In `undo` this comes before `current--` at line 82, so the cursor does not move.
  - Undoing or redoing any other entry while the broken one is in the stack throws at the `dump()` on line 83 or 95.
  - Either way the throw comes before `locked = false` (lines 84, 96). The lock then stays set, so lines 12, 28 and 44 ignore every later notification. `stopGrouping` (lines 106-121) has no lock check, so it still cuts the redo branch and pushes group entries. A transaction opened after the lock stuck buffers nothing, so its entry is empty; a transaction already open when the lock stuck still pushes the changes it buffered before.
  - The model has none of this failure path.
- `History.UndoManager.OnPropertyChanged`: the source's buffer entry shares the event's `newValues` object with the entry's redo closure. The model has no aliasing; the merged values are stored in the entry, which gives the same replay.
- The buffer is a sequence in insertion order, standing in for the order of `Object.values`. Integer-like ids, which JavaScript enumerates first, are not ordered that way. `Commands.GroupEffectAt` shows that the order does not change a group's effect.
- `src/metadoc/Editor1.js`, `src/h2d/HypercardApp.js`, `src/vr/GLTFAssetView.js`, `src/vr/defs/PlaneDef.js` and `src/vr/Common.js`: user interface, rendering, timers and constant tables. They are callers and context, not part of this model. The one exception is the editor inserting new children at index 0 (`src/metadoc/Editor1.js:212`), which `Commands.Change` and `Commands.Perform` model.

=== FILE: commands.dfy ===
/** History entries. Each handler of the undo manager records one of these; the
    closures of the original become plain data plus the pure functions ApplyUndo
    and ApplyRedo, which give the document after the entry's undo or redo. */
module Commands {
  import opened Graphs

  datatype Option<T> = None | Some(value: T)

  /** A property edit of one node: the values of the changed keys before and after. */
  datatype PropEdit = PropEdit(node: NodeId, oldValues: Props, newValues: Props)

  datatype Command =
    | Add(parent: NodeId, child: NodeId)
    | Remove(parent: NodeId, child: NodeId)
    | Prop(edit: PropEdit)
    | Group(entries: seq<PropEdit>)

  datatype Direction = Backward | Forward

  /** The values an edit writes back when undone (Backward) or redone (Forward). */
  function Values(e: PropEdit, d: Direction): Props
  {
    if d == Backward then e.oldValues else e.newValues
  }

  /** The nodes a sequence of edits touches. */
  function Nodes(es: seq<PropEdit>): set<NodeId>
  {
    if es == [] then {} else {es[0].node} + Nodes(es[1..])
  }

  /** No two edits of the sequence are about the same node. */
  predicate DistinctNodes(es: seq<PropEdit>)
  {
    es == [] || (es[0].node !in Nodes(es[1..]) && DistinctNodes(es[1..]))
  }

  /** The first edit of es about node n. */
  function Find(es: seq<PropEdit>, n: NodeId): (r: Option<PropEdit>)
    ensures r.Some? ==> r.value.node == n
    ensures r.None? <==> n !in Nodes(es)
  {
    if es == [] then None else if es[0].node == n then Some(es[0]) else Find(es[1..], n)
  }

  lemma {:induction false} FindSnoc(es: seq<PropEdit>, e: PropEdit, n: NodeId)
    ensures Find(es + [e], n) ==
      if Find(es, n).Some? then Find(es, n) else if e.node == n then Some(e) else None
  {
    if es == [] {
      assert es + [e] == [e];
    } else {
      assert (es + [e])[1..] == es[1..] + [e];
      FindSnoc(es[1..], e, n);
    }
  }

  lemma {:induction false} NodesSnoc(es: seq<PropEdit>, e: PropEdit)
    ensures Nodes(es + [e]) == Nodes(es) + {e.node}
  {
    if es == [] {
      assert es + [e] == [e];
    } else {
      assert (es + [e])[1..] == es[1..] + [e];
      NodesSnoc(es[1..], e);
    }
  }

  lemma {:induction false} DistinctSnoc(es: seq<PropEdit>, e: PropEdit)
    requires DistinctNodes(es) && e.node !in Nodes(es)
    ensures DistinctNodes(es + [e])
  {
    if es == [] {
      assert es + [e] == [e];
    } else {
      assert (es + [e])[1..] == es[1..] + [e];
      DistinctSnoc(es[1..], e);
      NodesSnoc(es[1..], e);
    }
  }

  lemma {:induction false} FindIn(es: seq<PropEdit>, n: NodeId)
    requires Find(es, n).Some?
    ensures Find(es, n).value in es
  {
    if es[0].node != n {
      FindIn(es[1..], n);
    }
  }

  /** With one edit per node, each edit is the one found for its node. */
  lemma {:induction false} FindMember(es: seq<PropEdit>, e: PropEdit)
    requires DistinctNodes(es) && e in es
    ensures Find(es, e.node) == Some(e)
  {
    if es[0] != e {
      assert e in es[1..];
      FindMember(es[1..], e);
    }
  }

  /** The entries of a group run one after the other, in buffer order, each
      setting its node's old (undo) or new (redo) values. */
  function ReplayEach(g: Graph, es: seq<PropEdit>, d: Direction): (r: Graph)
    ensures r.children == g.children
    ensures forall n :: n !in Nodes(es) ==> PropsOf(r, n) == PropsOf(g, n)
    decreases |es|
  {
    if es == [] then g else ReplayEach(SetProps(g, es[0].node, Values(es[0], d)), es[1..], d)
  }

  /** The undo closure of an entry: an add's undo takes the child out of every
      list, a removal's undo appends it to its parent's list, a property entry's
      undo writes its old values, a group's undo writes each entry's old values.
      Structural entries leave the properties alone; the others leave the
      structure alone. */
  function ApplyUndo(g: Graph, c: Command): (r: Graph)
    ensures c.Add? ==>
      r.props == g.props && r.children.Keys == g.children.Keys &&
      forall q :: q in r.children ==>
        (c.child !in r.children[q] &&
         forall x :: x != c.child ==> (x in r.children[q] <==> x in g.children[q]))
    ensures c.Remove? ==>
      r.props == g.props && ChildrenOf(r, c.parent) == ChildrenOf(g, c.parent) + [c.child] &&
      forall q :: q != c.parent ==> ChildrenOf(r, q) == ChildrenOf(g, q)
    ensures c.Prop? ==>
      r.children == g.children && PropsOf(r, c.edit.node) == PropsOf(g, c.edit.node) + c.edit.oldValues &&
      forall n :: n != c.edit.node ==> PropsOf(r, n) == PropsOf(g, n)
    ensures c.Group? ==>
      r.children == g.children &&
      forall n :: n !in Nodes(c.entries) ==> PropsOf(r, n) == PropsOf(g, n)
  {
    match c
    case Add(_, child) => DeleteChild(g, child)
    case Remove(parent, child) => AppendChild(g, parent, child)
    case Prop(e) => SetProps(g, e.node, e.oldValues)
    case Group(es) => ReplayEach(g, es, Backward)
  }

  /** The redo closure of an entry, the mirror image of its undo. */
  function ApplyRedo(g: Graph, c: Command): (r: Graph)
    ensures c.Add? ==>
      r.props == g.props && ChildrenOf(r, c.parent) == ChildrenOf(g, c.parent) + [c.child] &&
      forall q :: q != c.parent ==> ChildrenOf(r, q) == ChildrenOf(g, q)
    ensures c.Remove? ==>
      r.props == g.props && r.children.Keys == g.children.Keys &&
      forall q :: q in r.children ==>
        (c.child !in r.children[q] &&
         forall x :: x != c.child ==> (x in r.children[q] <==> x in g.children[q]))
    ensures c.Prop? ==>
      r.children == g.children && PropsOf(r, c.edit.node) == PropsOf(g, c.edit.node) + c.edit.newValues &&
      forall n :: n != c.edit.node ==> PropsOf(r, n) == PropsOf(g, n)
    ensures c.Group? ==>
      r.children == g.children &&
      forall n :: n !in Nodes(c.entries) ==> PropsOf(r, n) == PropsOf(g, n)
  {
    match c
    case Add(parent, child) => AppendChild(g, parent, child)
    case Remove(_, child) => DeleteChild(g, child)
    case Prop(e) => SetProps(g, e.node, e.newValues)
    case Group(es) => ReplayEach(g, es, Forward)
  }

  /** Running a group leaves the structure alone and gives every node the values of
      its own entry on top of what it had; nodes without an entry keep theirs. The
      order of the entries therefore does not matter. */
  lemma {:induction false} GroupEffectAt(g: Graph, es: seq<PropEdit>, d: Direction, n: NodeId)
    requires DistinctNodes(es)
    ensures ReplayEach(g, es, d).children == g.children
    ensures PropsOf(ReplayEach(g, es, d), n) ==
      if Find(es, n).Some? then PropsOf(g, n) + Values(Find(es, n).value, d) else PropsOf(g, n)
    decreases |es|
  {
    if es != [] {
      var g' := SetProps(g, es[0].node, Values(es[0], d));
      GroupEffectAt(g', es[1..], d, n);
      if es[0].node == n {
        assert Find(es[1..], n).None?;
      }
    }
  }

  lemma {:induction false} ReplayEachSnoc(g: Graph, es: seq<PropEdit>, e: PropEdit, d: Direction)
    ensures ReplayEach(g, es + [e], d) == SetProps(ReplayEach(g, es, d), e.node, Values(e, d))
    decreases |es|
  {
    if es == [] {
      assert es + [e] == [e];
    } else {
      assert (es + [e])[1..] == es[1..] + [e];
      ReplayEachSnoc(SetProps(g, es[0].node, Values(es[0], d)), es[1..], e, d);
    }
  }

  /** Setting a node no entry touches commutes with running the entries. */
  lemma {:induction false} ReplayEachCommute(g: Graph, es: seq<PropEdit>, d: Direction, n: NodeId, v: Props)
    requires n !in Nodes(es)
    ensures ReplayEach(SetProps(g, n, v), es, d) == SetProps(ReplayEach(g, es, d), n, v)
    decreases |es|
  {
    if es != [] {
      var m, w := es[0].node, Values(es[0], d);
      SetPropsCommute(g, n, v, m, w);
      ReplayEachCommute(SetProps(g, m, w), es[1..], d, n, v);
    }
  }

  /** What the editor did to the document before the provider notified the manager:
      inserted a child at index `at` of its parent's list (the editor inserts at the
      front as well as at the end), removed a child, set property values, or made
      property changes inside a transaction. */
  datatype Change =
    | Inserted(parent: NodeId, child: NodeId, at: nat)
    | Removed(parent: NodeId, child: NodeId)
    | Edited(edit: PropEdit)
    | Transaction(changes: seq<PropEdit>)

  /** The document after change ch. An index past the end of the list is taken as
      the end; the changes the lemmas below speak of never have one. */
  function Perform(g: Graph, ch: Change): Graph
  {
    match ch
    case Inserted(p, c, at) =>
      InsertChild(g, p, if at <= |ChildrenOf(g, p)| then at else |ChildrenOf(g, p)|, c)
    case Removed(_, c) => DeleteChild(g, c)
    case Edited(e) => SetProps(g, e.node, e.newValues)
    case Transaction(es) => ReplayEach(g, es, Forward)
  }

  /** The entry a handler records for a change made outside a transaction. */
  function Single(ch: Change): Command
    requires !ch.Transaction?
  {
    match ch
    case Inserted(p, c, _) => Add(p, c)
    case Removed(p, c) => Remove(p, c)
    case Edited(e) => Prop(e)
  }

  /** ch is a change outside a transaction that the notification describes
      truthfully. An inserted child was in no children list and goes at an index of
      its parent's list; a removed child was in exactly one list, once; a property
      event lists the same keys before and after, and its old values are the node's
      current ones. (Transactions are covered by the Grouper module.) */
  predicate Recordable(before: Graph, ch: Change)
  {
    match ch
    case Inserted(p, c, at) =>
      p in before.children && at <= |before.children[p]| &&
      forall q :: q in before.children ==> c !in before.children[q]
    case Removed(p, c) =>
      p in before.children && multiset(before.children[p])[c] == 1 &&
      forall q :: q in before.children && q != p ==> c !in before.children[q]
    case Edited(e) =>
      e.node in before.props && e.oldValues.Keys == e.newValues.Keys &&
      forall k :: k in e.oldValues ==> k in before.props[e.node] && before.props[e.node][k] == e.oldValues[k]
    case Transaction(_) => false
  }

  /** Undoing a recorded insertion, at any index, or a recorded property change gives
      back the document as it was before the change. */
  lemma UndoAfterEdit(before: Graph, ch: Change)
    requires Recordable(before, ch) && !ch.Removed?
    ensures ApplyUndo(Perform(before, ch), Single(ch)) == before
  {
    match ch
    case Inserted(p, c, at) =>
      DeleteInserted(before, p, at, c);
    case Edited(e) =>
      var pr := before.props[e.node];
      assert (pr + e.newValues) + e.oldValues == pr;
  }

  lemma DeleteInserted(g: Graph, p: NodeId, i: nat, c: NodeId)
    requires p in g.children && i <= |g.children[p]|
    requires forall q :: q in g.children ==> c !in g.children[q]
    ensures DeleteChild(InsertChild(g, p, i, c), c) == g
  {
    var undone := DeleteChild(InsertChild(g, p, i, c), c);
    forall q | q in g.children
      ensures undone.children[q] == g.children[q]
    {
      if q == p {
        WithoutInserted(g.children[p], i, c);
      }
    }
    assert undone.children == g.children;
  }

  lemma OnlyOccurrenceLast(s: seq<NodeId>, c: NodeId)
    requires multiset(s)[c] == 1 && |s| > 0 && s[|s| - 1] == c
    ensures c !in s[..|s| - 1]
  {
    var init := s[..|s| - 1];
    assert s == init + [c];
    assert multiset(s) == multiset(init) + multiset{c};
  }

  lemma MoveLastToEnd(s: seq<NodeId>, c: NodeId)
    requires multiset(s)[c] == 1 && |s| > 0 && s[|s| - 1] == c
    ensures Without(s, c) + [c] == s
  {
    OnlyOccurrenceLast(s, c);
    var init := s[..|s| - 1];
    assert s == init + [c];
    WithoutLast(init, c);
  }

  lemma WithoutLast(init: seq<NodeId>, c: NodeId)
    requires c !in init
    ensures Without(init + [c], c) == init
  {
    WithoutConcat(init, [c], c);
    assert [c][1..] == [];
    assert Without([c], c) == [];
  }

  /** Taking the only occurrence of c out of s and appending c gives s back exactly
      when c was last. */
  lemma MoveToEndKeepsIffLast(s: seq<NodeId>, c: NodeId)
    requires multiset(s)[c] == 1
    ensures |s| > 0
    ensures Without(s, c) + [c] == s <==> s[|s| - 1] == c
  {
    assert c in multiset(s);
    if s[|s| - 1] == c {
      MoveLastToEnd(s, c);
    } else {
      var r := Without(s, c) + [c];
      assert r[|r| - 1] == c;
    }
  }

  /** Deleting a child found only under p and appending it back under p only
      changes p's list. */
  lemma DeleteThenAppend(g: Graph, p: NodeId, ch: NodeId)
    requires p in g.children
    requires forall q :: q in g.children && q != p ==> ch !in g.children[q]
    ensures AppendChild(DeleteChild(g, ch), p, ch) ==
            g.(children := g.children[p := Without(g.children[p], ch) + [ch]])
  {
    var lhs := AppendChild(DeleteChild(g, ch), p, ch).children;
    var rhs := g.children[p := Without(g.children[p], ch) + [ch]];
    assert lhs.Keys == rhs.Keys;
    forall q | q in lhs.Keys
      ensures lhs[q] == rhs[q]
    {
    }
    assert lhs == rhs;
  }

  /** Undoing a recorded removal appends the child at the end of its parent's list,
      so it gives back the document exactly when the child was the last child. */
  lemma UndoRemoveRestoresIffLast(before: Graph, p: NodeId, ch: NodeId)
    requires Recordable(before, Removed(p, ch))
    ensures |before.children[p]| > 0
    ensures ApplyUndo(Perform(before, Removed(p, ch)), Remove(p, ch)) == before
        <==> before.children[p][|before.children[p]| - 1] == ch
  {
    var s := before.children[p];
    MoveToEndKeepsIffLast(s, ch);
    DeleteThenAppend(before, p, ch);
    var undone := ApplyUndo(Perform(before, Removed(p, ch)), Remove(p, ch));
    assert undone.children[p] == Without(s, ch) + [ch];
    if Without(s, ch) + [ch] == s {
      assert before.children[p := s] == before.children;
    }
  }

  /** Position loss: a root with children A, B; removing A and undoing leaves B, A. */
  lemma UndoRemoveReorders()
    ensures var before := Graph(map["root" := ["A", "B"]], map[]);
            ApplyUndo(Perform(before, Removed("root", "A")), Remove("root", "A")) != before
  {
    var before := Graph(map["root" := ["A", "B"]], map[]);
    assert multiset(before.children["root"]) == multiset{"A", "B"};
    UndoRemoveRestoresIffLast(before, "root", "A");
  }

  /** Redoing an undone change gives back the document as it was after the change,
      except for an insertion before the end of the list: redo appends the child,
      so it comes back at the end. A removal is redone wherever the undo put the
      child back. */
  lemma RedoAfterUndo(before: Graph, ch: Change)
    requires Recordable(before, ch)
    ensures ApplyRedo(ApplyUndo(Perform(before, ch), Single(ch)), Single(ch)) == Perform(before, ch)
        <==> (ch.Inserted? ==> ch.at == |before.children[ch.parent]|)
  {
    match ch
    case Inserted(p, c, at) =>
      RedoInsertIffEnd(before, p, c, at);
    case Removed(p, c) =>
      RemoveAgain(before, p, c);
    case Edited(e) =>
      var pr := PropsOf(Perform(before, ch), e.node);
      assert (pr + e.oldValues) + e.newValues == pr;
  }

  lemma RedoInsertIffEnd(before: Graph, p: NodeId, c: NodeId, at: nat)
    requires Recordable(before, Inserted(p, c, at))
    ensures ApplyRedo(ApplyUndo(Perform(before, Inserted(p, c, at)), Add(p, c)), Add(p, c)) ==
              Perform(before, Inserted(p, c, at))
        <==> at == |before.children[p]|
  {
    var s := before.children[p];
    DeleteInserted(before, p, at, c);
    AppendIsInsertIffEnd(s, at, c);
    var redone := AppendChild(before, p, c);
    var after := InsertChild(before, p, at, c);
    assert redone.children[p] == s + [c] && after.children[p] == s[..at] + [c] + s[at..];
    if s + [c] == s[..at] + [c] + s[at..] {
      assert redone.children == after.children;
    }
  }

  /** Position loss on redo: a layer with child X gets C inserted at the front;
      undo and redo leave X, C instead of C, X. */
  lemma RedoInsertReorders()
    ensures var before := Graph(map["L" := ["X"]], map[]);
            var ch := Inserted("L", "C", 0);
            ApplyRedo(ApplyUndo(Perform(before, ch), Add("L", "C")), Add("L", "C")) != Perform(before, ch)
  {
    var before := Graph(map["L" := ["X"]], map[]);
    assert "C" != "X" by { assert "C"[0] != "X"[0]; }
    RedoInsertIffEnd(before, "L", "C", 0);
  }

  /** Appending a deleted child and deleting it again gives the same lists. */
  lemma RemoveAgain(g: Graph, p: NodeId, ch: NodeId)
    requires p in g.children
    ensures DeleteChild(AppendChild(DeleteChild(g, ch), p, ch), ch) == DeleteChild(g, ch)
  {
    var after := DeleteChild(g, ch);
    var appended := AppendChild(after, p, ch);
    var redone := DeleteChild(appended, ch);
    forall q | q in after.children
      ensures redone.children[q] == after.children[q]
    {
      if q == p {
        assert appended.children[p] == after.children[p] + [ch];
        WithoutLast(after.children[p], ch);
      }
    }
    assert redone.children.Keys == after.children.Keys;
    assert redone.children == after.children;
  }

  /** Redoing a group twice gives what redoing it once gives. */
  lemma GroupRedoTwice(g: Graph, es: seq<PropEdit>)
    requires DistinctNodes(es)
    ensures ReplayEach(ReplayEach(g, es, Forward), es, Forward) == ReplayEach(g, es, Forward)
  {
    var h := ReplayEach(g, es, Forward);
    var h2 := ReplayEach(h, es, Forward);
    forall n
      ensures PropsOf(h2, n) == PropsOf(h, n)
    {
      GroupEffectAt(g, es, Forward, n);
      GroupEffectAt(h, es, Forward, n);
      if Find(es, n).Some? {
        var v := Find(es, n).value.newValues;
        assert (PropsOf(g, n) + v) + v == PropsOf(g, n) + v;
      }
    }
    ReplayEachKeys(g, es, Forward);
    ReplayEachKeys(h, es, Forward);
    forall n | n in h.props
      ensures h2.props[n] == h.props[n]
    {
      assert PropsOf(h2, n) == PropsOf(h, n);
    }
    assert h2.props == h.props;
  }

  lemma {:induction false} ReplayEachKeys(g: Graph, es: seq<PropEdit>, d: Direction)
    ensures ReplayEach(g, es, d).props.Keys == g.props.Keys + Nodes(es)
    decreases |es|
  {
    if es != [] {
      ReplayEachKeys(SetProps(g, es[0].node, Values(es[0], d)), es[1..], d);
    }
  }

  /** The same for a group whose every entry writes back on redo at least the keys
      it restores on undo: undo then redo of the group equals its redo. */
  lemma {:induction false} GroupRedoAfterUndo(g: Graph, es: seq<PropEdit>)
    requires DistinctNodes(es)
    requires forall e :: e in es ==> e.oldValues.Keys <= e.newValues.Keys
    ensures ApplyRedo(ApplyUndo(g, Group(es)), Group(es)) == ApplyRedo(g, Group(es))
  {
    if es != [] {
      var e, rest := es[0], es[1..];
      var r := ReplayEach(g, rest, Backward);
      calc {
        ReplayEach(ReplayEach(g, es, Backward), es, Forward);
        { ReplayEachCommute(g, rest, Backward, e.node, e.oldValues); }
        ReplayEach(SetProps(r, e.node, e.oldValues), es, Forward);
        ReplayEach(SetProps(SetProps(r, e.node, e.oldValues), e.node, e.newValues), rest, Forward);
        { SetPropsTwice(r, e.node, e.oldValues, e.newValues);
          assert e.oldValues + e.newValues == e.newValues; }
        ReplayEach(SetProps(r, e.node, e.newValues), rest, Forward);
        { ReplayEachCommute(r, rest, Forward, e.node, e.newValues); }
        SetProps(ReplayEach(r, rest, Forward), e.node, e.newValues);
        { GroupRedoAfterUndo(g, rest); }
        SetProps(ReplayEach(g, rest, Forward), e.node, e.newValues);
        { ReplayEachCommute(g, rest, Forward, e.node, e.newValues); }
        ReplayEach(g, es, Forward);
      }
    }
  }
}

=== FILE: graph.dfy ===
/** The document graph the undo manager replays commands against. The real graph
    belongs to the sync provider; only the three primitives the manager calls are
    modelled, as pure updates of an abstract value. */
module Graphs {

  type NodeId = string
  type Key = string
  type Value = string

  /** The keyed property values of one node. */
  type Props = map<Key, Value>

  /** Each node's ordered children and each node's property values. */
  datatype Graph = Graph(children: map<NodeId, seq<NodeId>>, props: map<NodeId, Props>)

  function ChildrenOf(g: Graph, n: NodeId): seq<NodeId>
  {
    if n in g.children then g.children[n] else []
  }

  function PropsOf(g: Graph, n: NodeId): Props
  {
    if n in g.props then g.props[n] else map[]
  }

  /** s with every occurrence of c taken out, the rest in order. */
  function Without(s: seq<NodeId>, c: NodeId): (r: seq<NodeId>)
    ensures forall x :: x in r <==> x in s && x != c
    ensures c !in s ==> r == s
  {
    if s == [] then [] else (if s[0] == c then [] else [s[0]]) + Without(s[1..], c)
  }

  lemma {:induction false} WithoutConcat(s: seq<NodeId>, t: seq<NodeId>, c: NodeId)
    ensures Without(s + t, c) == Without(s, c) + Without(t, c)
  {
    if s == [] {
      assert s + t == t;
    } else {
      assert (s + t)[0] == s[0];
      assert (s + t)[1..] == s[1..] + t;
      WithoutConcat(s[1..], t, c);
    }
  }

  /** deleteChild: the child leaves the children list of its parent (found by the provider). */
  function DeleteChild(g: Graph, c: NodeId): Graph
  {
    g.(children := map p | p in g.children :: Without(g.children[p], c))
  }

  /** appendChild: the child goes at the end of the parent's children list. */
  function AppendChild(g: Graph, p: NodeId, c: NodeId): Graph
  {
    g.(children := g.children[p := ChildrenOf(g, p) + [c]])
  }

  /** An insertion by the editor: the child goes at index i of the parent's list. */
  function InsertChild(g: Graph, p: NodeId, i: nat, c: NodeId): Graph
    requires i <= |ChildrenOf(g, p)|
  {
    g.(children := g.children[p := ChildrenOf(g, p)[..i] + [c] + ChildrenOf(g, p)[i..]])
  }

  /** Taking a child out of the list it was inserted into gives the list back. */
  lemma WithoutInserted(s: seq<NodeId>, i: nat, c: NodeId)
    requires i <= |s| && c !in s
    ensures Without(s[..i] + [c] + s[i..], c) == s
  {
    assert s[..i] + s[i..] == s;
    WithoutAround(s[..i], s[i..], c);
  }

  lemma WithoutAround(front: seq<NodeId>, back: seq<NodeId>, c: NodeId)
    requires c !in front && c !in back
    ensures Without(front + [c] + back, c) == front + back
  {
    WithoutConcat(front + [c], back, c);
    WithoutConcat(front, [c], c);
    WithoutSingle(c);
  }

  lemma WithoutSingle(c: NodeId)
    ensures Without([c], c) == []
  {
    assert [c][1..] == [];
  }

  /** Appending a new child puts it where an insertion at index i did exactly when
      i is the end of the list. */
  lemma AppendIsInsertIffEnd(s: seq<NodeId>, i: nat, c: NodeId)
    requires i <= |s| && c !in s
    ensures s + [c] == s[..i] + [c] + s[i..] <==> i == |s|
  {
    if i < |s| {
      assert (s + [c])[i] == s[i];
      assert (s[..i] + [c] + s[i..])[i] == c;
    } else {
      assert s[..i] == s && s[i..] == [];
    }
  }

  /** setPropertyValues: exactly the given keys of the node are overwritten. */
  function SetProps(g: Graph, n: NodeId, values: Props): Graph
  {
    g.(props := g.props[n := PropsOf(g, n) + values])
  }

  lemma SetPropsCommute(g: Graph, n: NodeId, a: Props, m: NodeId, b: Props)
    requires n != m
    ensures SetProps(SetProps(g, n, a), m, b) == SetProps(SetProps(g, m, b), n, a)
  {
    var pn, pm := PropsOf(g, n) + a, PropsOf(g, m) + b;
    assert PropsOf(SetProps(g, n, a), m) == PropsOf(g, m);
    assert PropsOf(SetProps(g, m, b), n) == PropsOf(g, n);
    assert g.props[n := pn][m := pm] == g.props[m := pm][n := pn];
  }

  lemma SetPropsTwice(g: Graph, n: NodeId, a: Props, b: Props)
    ensures SetProps(SetProps(g, n, a), n, b) == SetProps(g, n, a + b)
  {
    OverrideAssoc(PropsOf(g, n), a, b);
  }

  lemma OverrideAssoc(p: Props, a: Props, b: Props)
    ensures (p + a) + b == p + (a + b)
  {
  }
}

=== FILE: grouper.dfy ===
/** The per-node buffer that coalesces property changes while a transaction is open
    (UndoManager.js, lines 45-58). The buffer is a dictionary from node id to an
    entry; its entries are kept here in insertion order, which is the order in which
    the group's undo and redo visit them. */
module Grouper {
  import opened Graphs
  import opened Commands

  /** The buffer with the entry for x.node replaced by x. */
  function Update(buf: seq<PropEdit>, x: PropEdit): (r: seq<PropEdit>)
    requires DistinctNodes(buf)
    ensures Nodes(r) == Nodes(buf) && DistinctNodes(r)
    ensures forall n :: Find(r, n) == if n == x.node && n in Nodes(buf) then Some(x) else Find(buf, n)
  {
    if buf == [] then []
    else if buf[0].node == x.node then [x] + buf[1..]
    else [buf[0]] + Update(buf[1..], x)
  }

  /** The buffer after one property change e: the first change of a node is stored as
      it came; a later one leaves the stored old values alone and merges its new
      values into the stored ones, key by key. */
  function Record(buf: seq<PropEdit>, e: PropEdit): (r: seq<PropEdit>)
    requires DistinctNodes(buf)
    ensures DistinctNodes(r)
    ensures Nodes(r) == Nodes(buf) + {e.node}
    ensures Find(buf, e.node).None? ==> Find(r, e.node) == Some(e)
    ensures Find(buf, e.node).Some? ==>
      var x := Find(buf, e.node).value;
      Find(r, e.node) == Some(PropEdit(e.node, x.oldValues, x.newValues + e.newValues))
    ensures forall n :: n != e.node ==> Find(r, n) == Find(buf, n)
  {
    match Find(buf, e.node)
    case None =>
      FindSnocAll(buf, e);
      NodesSnoc(buf, e);
      DistinctSnoc(buf, e);
      buf + [e]
    case Some(x) => Update(buf, x.(newValues := x.newValues + e.newValues))
  }

  lemma FindSnocAll(buf: seq<PropEdit>, e: PropEdit)
    ensures forall n :: Find(buf + [e], n) ==
                        if Find(buf, n).Some? then Find(buf, n) else if e.node == n then Some(e) else None
  {
    forall n {
      FindSnoc(buf, e, n);
    }
  }

  /** The key-by-key merge of a later change's new values into the stored ones. */
  method MergeKeys(stored: Props, incoming: Props) returns (merged: Props)
    ensures merged.Keys == stored.Keys + incoming.Keys
    ensures forall k :: k in incoming ==> merged[k] == incoming[k]
    ensures forall k :: k in stored && k !in incoming ==> merged[k] == stored[k]
  {
    merged := stored;
    var pending := incoming.Keys;
    while pending != {}
      invariant pending <= incoming.Keys
      invariant merged.Keys == stored.Keys + (incoming.Keys - pending)
      invariant forall k :: k in incoming && k !in pending ==> merged[k] == incoming[k]
      invariant forall k :: k in stored && k !in incoming ==> merged[k] == stored[k]
      invariant forall k :: k in stored && k in pending ==> merged[k] == stored[k]
      decreases pending
    {
      var k :| k in pending;
      merged := merged[k := incoming[k]];
      pending := pending - {k};
    }
  }

  /** The buffer after the property changes es arrive, in order, in one transaction. */
  function Buffer(es: seq<PropEdit>): (r: seq<PropEdit>)
    ensures DistinctNodes(r)
    decreases |es|
  {
    if es == [] then [] else Record(Buffer(es[..|es| - 1]), es[|es| - 1])
  }

  /** Reference definition: every new value the changes of es give node n, a later
      change overriding an earlier one. */
  function MergedNew(es: seq<PropEdit>, n: NodeId): Props
    decreases |es|
  {
    if es == [] then map[]
    else
      var last := es[|es| - 1];
      MergedNew(es[..|es| - 1], n) + (if last.node == n then last.newValues else map[])
  }

  lemma {:induction false} MergedNewUntouched(es: seq<PropEdit>, n: NodeId)
    requires Find(es, n).None?
    ensures MergedNew(es, n) == map[]
    decreases |es|
  {
    if es != [] {
      var init := es[..|es| - 1];
      assert es == init + [es[|es| - 1]];
      FindSnoc(init, es[|es| - 1], n);
      MergedNewUntouched(init, n);
    }
  }

  /** Reference definition of a node's buffer entry after the changes es: the old
      values of the node's first change and the merged new values of all of them. */
  function EntryOf(es: seq<PropEdit>, n: NodeId): Option<PropEdit>
  {
    if Find(es, n).None? then None
    else Some(PropEdit(n, Find(es, n).value.oldValues, MergedNew(es, n)))
  }

  lemma MergedNewSnoc(init: seq<PropEdit>, e: PropEdit, n: NodeId)
    ensures MergedNew(init + [e], n) == MergedNew(init, n) + (if e.node == n then e.newValues else map[])
  {
    assert (init + [e])[..|init|] == init;
  }

  lemma EntryOfSnoc(init: seq<PropEdit>, e: PropEdit, n: NodeId)
    ensures EntryOf(init + [e], n) ==
      if e.node != n then EntryOf(init, n)
      else if EntryOf(init, n).None? then Some(e)
      else Some(EntryOf(init, n).value.(newValues := EntryOf(init, n).value.newValues + e.newValues))
  {
    MergedNewSnoc(init, e, n);
    FindSnoc(init, e, n);
    if e.node != n {
      assert MergedNew(init, n) + map[] == MergedNew(init, n);
    } else if Find(init, n).None? {
      MergedNewUntouched(init, n);
      assert map[] + e.newValues == e.newValues;
    }
  }

  /** After a transaction's changes es, the buffer holds an entry for exactly the
      nodes es touches; that entry keeps the old values of the node's first change
      and the merged new values of all its changes. */
  lemma {:induction false} BufferEntry(es: seq<PropEdit>, n: NodeId)
    ensures Find(Buffer(es), n) == EntryOf(es, n)
    decreases |es|
  {
    if es != [] {
      var init, e := es[..|es| - 1], es[|es| - 1];
      assert es == init + [e];
      EntryOfSnoc(init, e, n);
      BufferEntry(init, n);
    }
  }

  /** Redoing a merged entry equals redoing the old entry and then the new change. */
  lemma {:induction false} RedoUpdate(g: Graph, buf: seq<PropEdit>, x: PropEdit, extra: Props)
    requires DistinctNodes(buf) && Find(buf, x.node) == Some(x)
    ensures ReplayEach(g, Update(buf, x.(newValues := x.newValues + extra)), Forward) ==
            SetProps(ReplayEach(g, buf, Forward), x.node, extra)
    decreases |buf|
  {
    var x' := x.(newValues := x.newValues + extra);
    var rest := buf[1..];
    if buf[0].node == x.node {
      assert buf[0] == x;
      assert ([x'] + rest)[1..] == rest;
      calc {
        ReplayEach(g, [x'] + rest, Forward);
        ReplayEach(SetProps(g, x.node, x.newValues + extra), rest, Forward);
        { ReplayEachCommute(g, rest, Forward, x.node, x.newValues + extra); }
        SetProps(ReplayEach(g, rest, Forward), x.node, x.newValues + extra);
        { SetPropsTwice(ReplayEach(g, rest, Forward), x.node, x.newValues, extra); }
        SetProps(SetProps(ReplayEach(g, rest, Forward), x.node, x.newValues), x.node, extra);
        { ReplayEachCommute(g, rest, Forward, x.node, x.newValues); }
        SetProps(ReplayEach(SetProps(g, x.node, x.newValues), rest, Forward), x.node, extra);
      }
    } else {
      assert ([buf[0]] + Update(rest, x'))[1..] == Update(rest, x');
      RedoUpdate(SetProps(g, buf[0].node, buf[0].newValues), rest, x, extra);
    }
  }

  /** Redoing the buffer after one more change equals redoing the buffer and then
      that change. */
  lemma RedoRecord(g: Graph, buf: seq<PropEdit>, e: PropEdit)
    requires DistinctNodes(buf)
    ensures ReplayEach(g, Record(buf, e), Forward) ==
            SetProps(ReplayEach(g, buf, Forward), e.node, e.newValues)
  {
    match Find(buf, e.node)
    case None =>
      ReplayEachSnoc(g, buf, e, Forward);
    case Some(x) =>
      RedoUpdate(g, buf, x, e.newValues);
  }

  /** Redoing the group a transaction leaves behind gives the document every change
      of the transaction gave it, in order: the state as of the end of the
      transaction. */
  lemma {:induction false} TransactionRedo(g: Graph, es: seq<PropEdit>)
    ensures ApplyRedo(g, Group(Buffer(es))) == ReplayEach(g, es, Forward)
    decreases |es|
  {
    if es != [] {
      var init, e := es[..|es| - 1], es[|es| - 1];
      assert es == init + [e];
      RedoRecord(g, Buffer(init), e);
      TransactionRedo(g, init);
      ReplayEachSnoc(g, init, e, Forward);
    }
  }

  /** Undoing the group a transaction leaves behind writes back, on each node the
      transaction touched, the old values of that node's first change, and nothing
      else: keys that only later changes touched keep their current values. */
  lemma TransactionUndoAt(h: Graph, es: seq<PropEdit>, n: NodeId)
    ensures ApplyUndo(h, Group(Buffer(es))).children == h.children
    ensures PropsOf(ApplyUndo(h, Group(Buffer(es))), n) ==
      if Find(es, n).Some? then PropsOf(h, n) + Find(es, n).value.oldValues else PropsOf(h, n)
  {
    GroupEffectAt(h, Buffer(es), Backward, n);
    BufferEntry(es, n);
  }

  /** A node no edit touches keeps its properties, and is in the document afterwards
      exactly when it was before. */
  lemma {:induction false} UntouchedNode(g: Graph, es: seq<PropEdit>, d: Direction, n: NodeId)
    requires n !in Nodes(es)
    ensures n in ReplayEach(g, es, d).props <==> n in g.props
    ensures PropsOf(ReplayEach(g, es, d), n) == PropsOf(g, n)
    decreases |es|
  {
    if es != [] {
      UntouchedNode(SetProps(g, es[0].node, Values(es[0], d)), es[1..], d, n);
    }
  }

  /** es is a transaction of truthful property changes made from g in which every
      later change of a node only touches keys the node's first change touched. */
  predicate FaithfulTransaction(g: Graph, es: seq<PropEdit>)
    decreases |es|
  {
    es == [] ||
    (var init, e := es[..|es| - 1], es[|es| - 1];
     FaithfulTransaction(g, init) &&
     Recordable(ReplayEach(g, init, Forward), Edited(e)) &&
     (Find(init, e.node).Some? ==> e.newValues.Keys <= Find(init, e.node).value.oldValues.Keys))
  }

  lemma {:induction false} FaithfulNodes(g: Graph, es: seq<PropEdit>)
    requires FaithfulTransaction(g, es)
    ensures Nodes(es) <= g.props.Keys
    decreases |es|
  {
    if es != [] {
      var init, e := es[..|es| - 1], es[|es| - 1];
      assert es == init + [e];
      NodesSnoc(init, e);
      FaithfulNodes(g, init);
      ReplayEachKeys(g, init, Forward);
    }
  }

  /** In such a transaction the first change of a node records the node's values at
      the start, and covers every key its later changes write. */
  lemma {:induction false} FaithfulFirstChange(g: Graph, es: seq<PropEdit>, n: NodeId)
    requires FaithfulTransaction(g, es) && Find(es, n).Some?
    ensures n in g.props
    ensures MergedNew(es, n).Keys <= Find(es, n).value.oldValues.Keys
    ensures forall k :: k in Find(es, n).value.oldValues ==>
      k in g.props[n] && g.props[n][k] == Find(es, n).value.oldValues[k]
    decreases |es|
  {
    var init, e := es[..|es| - 1], es[|es| - 1];
    assert Find(es, n) ==
      if Find(init, n).Some? then Find(init, n) else if e.node == n then Some(e) else None
    by {
      assert es == init + [e];
      FindSnoc(init, e, n);
    }
    assert MergedNew(es, n) == MergedNew(init, n) + (if e.node == n then e.newValues else map[]);
    if Find(init, n).Some? {
      FaithfulFirstChange(g, init, n);
    } else {
      assert e.node == n;
      var before := ReplayEach(g, init, Forward);
      assert Recordable(before, Edited(e));
      MergedNewUntouched(init, n);
      UntouchedNode(g, init, Forward, n);
      assert n in g.props && before.props[n] == g.props[n];
    }
  }

  /** At the end of a transaction a node it touched carries, on top of its starting
      values, the merged new values of its changes. */
  lemma TransactionEndAt(g: Graph, es: seq<PropEdit>, n: NodeId)
    ensures PropsOf(ReplayEach(g, es, Forward), n) ==
      if Find(es, n).Some? then PropsOf(g, n) + MergedNew(es, n) else PropsOf(g, n)
  {
    TransactionRedo(g, es);
    BufferEntry(es, n);
    GroupEffectAt(g, Buffer(es), Forward, n);
  }

  /** In such a transaction, undoing the group gives every node back the values it
      had when the transaction opened. */
  lemma TransactionUndoRestoresAt(g: Graph, es: seq<PropEdit>, n: NodeId)
    requires FaithfulTransaction(g, es)
    ensures PropsOf(ApplyUndo(ReplayEach(g, es, Forward), Group(Buffer(es))), n) == PropsOf(g, n)
  {
    var after := ReplayEach(g, es, Forward);
    TransactionEndAt(g, es, n);
    TransactionUndoAt(after, es, n);
    if Find(es, n).Some? {
      FaithfulFirstChange(g, es, n);
      OverrideRestores(g.props[n], MergedNew(es, n), Find(es, n).value.oldValues);
    }
  }

  /** Writing m and then o on p gives p back when o holds p's own values and covers m. */
  lemma OverrideRestores(p: Props, m: Props, o: Props)
    requires m.Keys <= o.Keys
    requires forall k :: k in o ==> k in p && p[k] == o[k]
    ensures (p + m) + o == p
  {
  }

  /** Undoing the group of such a transaction gives back the document as it was when
      the transaction opened. */
  lemma TransactionUndoRestores(g: Graph, es: seq<PropEdit>)
    requires FaithfulTransaction(g, es)
    ensures ApplyUndo(ReplayEach(g, es, Forward), Group(Buffer(es))) == g
  {
    var b := Buffer(es);
    var after := ReplayEach(g, es, Forward);
    var undone := ApplyUndo(after, Group(b));
    assert undone.children == g.children by {
      TransactionRedo(g, es);
      GroupEffectAt(g, b, Forward, "");
      GroupEffectAt(after, b, Backward, "");
    }
    assert undone.props.Keys == g.props.Keys by {
      FaithfulNodes(g, es);
      forall n | n in Nodes(b)
        ensures n in g.props
      {
        BufferEntry(es, n);
      }
      ReplayEachKeys(g, es, Forward);
      ReplayEachKeys(after, b, Backward);
    }
    forall n | n in g.props
      ensures undone.props[n] == g.props[n]
    {
      TransactionUndoRestoresAt(g, es, n);
    }
    assert undone.props == g.props;
  }

  /** The merged new values of a node cover the new values of its first change. */
  lemma {:induction false} MergedNewCovers(es: seq<PropEdit>, n: NodeId)
    requires Find(es, n).Some?
    ensures Find(es, n).value.newValues.Keys <= MergedNew(es, n).Keys
    decreases |es|
  {
    var init, e := es[..|es| - 1], es[|es| - 1];
    assert es == init + [e];
    FindSnoc(init, e, n);
    MergedNewSnoc(init, e, n);
    if Find(init, n).Some? {
      MergedNewCovers(init, n);
    }
  }

  /** If every change writes back on redo at least the keys it restores on undo,
      so does every entry of the buffer. */
  lemma BufferKeysCover(es: seq<PropEdit>)
    requires forall e :: e in es ==> e.oldValues.Keys <= e.newValues.Keys
    ensures forall x :: x in Buffer(es) ==> x.oldValues.Keys <= x.newValues.Keys
  {
    forall x | x in Buffer(es)
      ensures x.oldValues.Keys <= x.newValues.Keys
    {
      FindMember(Buffer(es), x);
      BufferEntry(es, x.node);
      FindIn(es, x.node);
      MergedNewCovers(es, x.node);
    }
  }

  /** Redo after undo of a transaction's group gives back the document as it was
      at the end of the transaction, late keys included: line 116 writes the merged
      new values, which cover every key the undo wrote. */
  lemma TransactionRedoAfterUndo(g: Graph, es: seq<PropEdit>)
    requires forall e :: e in es ==> e.oldValues.Keys <= e.newValues.Keys
    ensures var b := Group(Buffer(es));
      ApplyRedo(ApplyUndo(ReplayEach(g, es, Forward), b), b) == ReplayEach(g, es, Forward)
  {
    var b := Buffer(es);
    var h := ReplayEach(g, es, Forward);
    TransactionRedo(g, es);
    BufferKeysCover(es);
    GroupRedoAfterUndo(h, b);
    GroupRedoTwice(g, b);
  }

  /** A key that the first change of node n in a transaction does not list is not
      restored by undo: it keeps the value the transaction's changes last wrote. */
  lemma LateKeyKept(g: Graph, es: seq<PropEdit>, n: NodeId, k: Key)
    requires Find(es, n).Some? && k !in Find(es, n).value.oldValues
    requires k in MergedNew(es, n)
    ensures var undone := ApplyUndo(ReplayEach(g, es, Forward), Group(Buffer(es)));
      k in PropsOf(undone, n) && PropsOf(undone, n)[k] == MergedNew(es, n)[k]
  {
    TransactionEndAt(g, es, n);
    TransactionUndoAt(ReplayEach(g, es, Forward), es, n);
  }

  /** Two changes of node A in one transaction, {a: 0 -> 1} and then
      {a: 1 -> 2, b: 0 -> 5}: undoing the group leaves b at 5, so the node does not
      get back the values it had when the transaction opened. */
  lemma GroupUndoLeavesLateKey()
    ensures
      var g := Graph(map[], map["A" := map["a" := "0", "b" := "0"]]);
      var e1 := PropEdit("A", map["a" := "0"], map["a" := "1"]);
      var e2 := PropEdit("A", map["a" := "1", "b" := "0"], map["a" := "2", "b" := "5"]);
      var undone := ApplyUndo(ReplayEach(g, [e1, e2], Forward), Group(Buffer([e1, e2])));
      "b" in PropsOf(undone, "A") && PropsOf(undone, "A")["b"] == "5" && PropsOf(g, "A")["b"] == "0"
  {
    var e1 := PropEdit("A", map["a" := "0"], map["a" := "1"]);
    var e2 := PropEdit("A", map["a" := "1", "b" := "0"], map["a" := "2", "b" := "5"]);
    LateMerge(e1, e2);
    LateKeyKept(Graph(map[], map["A" := map["a" := "0", "b" := "0"]]), [e1, e2], "A", "b");
  }

  /** In the same transaction, redoing the group after that undo gives A back the
      values it had at the end of the transaction: a = 2 and b = 5. */
  lemma GroupRedoAfterUndoEndValues()
    ensures
      var g := Graph(map[], map["A" := map["a" := "0", "b" := "0"]]);
      var e1 := PropEdit("A", map["a" := "0"], map["a" := "1"]);
      var e2 := PropEdit("A", map["a" := "1", "b" := "0"], map["a" := "2", "b" := "5"]);
      var b := Group(Buffer([e1, e2]));
      var redone := ApplyRedo(ApplyUndo(ReplayEach(g, [e1, e2], Forward), b), b);
      "a" in PropsOf(redone, "A") && PropsOf(redone, "A")["a"] == "2" &&
      "b" in PropsOf(redone, "A") && PropsOf(redone, "A")["b"] == "5"
  {
    var g := Graph(map[], map["A" := map["a" := "0", "b" := "0"]]);
    var e1 := PropEdit("A", map["a" := "0"], map["a" := "1"]);
    var e2 := PropEdit("A", map["a" := "1", "b" := "0"], map["a" := "2", "b" := "5"]);
    LateMerge(e1, e2);
    TransactionRedoAfterUndo(g, [e1, e2]);
    TransactionEndAt(g, [e1, e2], "A");
  }

  /** The merged new values of A in those two changes. */
  lemma LateMerge(e1: PropEdit, e2: PropEdit)
    requires e1 == PropEdit("A", map["a" := "0"], map["a" := "1"])
    requires e2 == PropEdit("A", map["a" := "1", "b" := "0"], map["a" := "2", "b" := "5"])
    ensures Find([e1, e2], "A") == Some(e1) && "b" !in e1.oldValues
    ensures "a" in MergedNew([e1, e2], "A") && MergedNew([e1, e2], "A")["a"] == "2"
    ensures "b" in MergedNew([e1, e2], "A") && MergedNew([e1, e2], "A")["b"] == "5"
  {
    assert "a" != "b" by { assert "a"[0] != "b"[0]; }
    assert [e1, e2][..1] == [e1];
    assert [e1][..0] == [];
    assert MergedNew([e1], "A") == map[] + e1.newValues;
    assert MergedNew([e1, e2], "A") == MergedNew([e1], "A") + e2.newValues;
  }
}

=== FILE: histories.dfy ===
/** Whole histories: the changes the editor makes one after another, the entries the
    manager records for them, and what undoing all of them and redoing all of them
    does to the document. */
module Histories {
  import opened Graphs
  import opened Commands
  import opened Grouper

  /** The entry the manager records for change ch: for a transaction, the group
      stopGrouping pushes with its buffer; otherwise the entry of the handler. */
  function Recorded(ch: Change): Command
  {
    if ch.Transaction? then Group(Buffer(ch.changes)) else Single(ch)
  }

  /** The document after the changes chs, in order, starting from g. */
  function PerformAll(g: Graph, chs: seq<Change>): Graph
  {
    if chs == [] then g else Perform(PerformAll(g, chs[..|chs| - 1]), chs[|chs| - 1])
  }

  /** The history the manager holds after the changes chs. */
  function RecordedAll(chs: seq<Change>): (r: seq<Command>)
    ensures |r| == |chs|
  {
    if chs == [] then [] else RecordedAll(chs[..|chs| - 1]) + [Recorded(chs[|chs| - 1])]
  }

  /** The document after redoing cs in order, starting from g. */
  function RedoAll(g: Graph, cs: seq<Command>): Graph
  {
    if cs == [] then g else ApplyRedo(RedoAll(g, cs[..|cs| - 1]), cs[|cs| - 1])
  }

  /** The document after undoing cs from the last entry back to the first. */
  function UndoAll(g: Graph, cs: seq<Command>): Graph
    decreases |cs|
  {
    if cs == [] then g else UndoAll(ApplyUndo(g, cs[|cs| - 1]), cs[..|cs| - 1])
  }

  /** ch, made on b, is truthfully notified and does not lose a position on undo: a
      removal took away the last child of its parent, and in a transaction every
      later change of a node only touches keys the node's first change touched. */
  predicate Truthful(b: Graph, ch: Change)
  {
    if ch.Transaction? then FaithfulTransaction(b, ch.changes)
    else
      Recordable(b, ch) &&
      (ch.Removed? ==> var s := b.children[ch.parent]; |s| > 0 && s[|s| - 1] == ch.child)
  }

  predicate Invertible(g: Graph, chs: seq<Change>)
  {
    chs == [] ||
    (Invertible(g, chs[..|chs| - 1]) && Truthful(PerformAll(g, chs[..|chs| - 1]), chs[|chs| - 1]))
  }

  /** Every insertion of chs put the child at the end of its parent's list. */
  predicate InsertsAtEnd(g: Graph, chs: seq<Change>)
  {
    chs == [] ||
    (InsertsAtEnd(g, chs[..|chs| - 1]) &&
     var ch := chs[|chs| - 1];
     ch.Inserted? ==> ch.at == |ChildrenOf(PerformAll(g, chs[..|chs| - 1]), ch.parent)|)
  }

  /** Undoing the entry recorded for one such change gives back the document. */
  lemma UndoStep(b: Graph, ch: Change)
    requires Truthful(b, ch)
    ensures ApplyUndo(Perform(b, ch), Recorded(ch)) == b
  {
    match ch
    case Transaction(es) =>
      TransactionUndoRestores(b, es);
    case Removed(p, c) =>
      UndoRemoveRestoresIffLast(b, p, c);
    case Inserted(_, _, _) =>
      UndoAfterEdit(b, ch);
    case Edited(_) =>
      UndoAfterEdit(b, ch);
  }

  /** Redoing it reproduces the change, provided an insertion was at the end. */
  lemma RedoStep(b: Graph, ch: Change)
    requires ch.Inserted? ==> ch.at == |ChildrenOf(b, ch.parent)|
    ensures ApplyRedo(b, Recorded(ch)) == Perform(b, ch)
  {
    match ch
    case Transaction(es) =>
      TransactionRedo(b, es);
    case Inserted(p, c, at) =>
      var s := ChildrenOf(b, p);
      assert s[..at] == s && s[at..] == [];
      assert s[..at] + [c] + s[at..] == s + [c];
    case Removed(_, _) =>
    case Edited(_) =>
  }

  /** Undoing every entry of such a history returns to the document it started
      from, wherever its insertions put their children. */
  lemma {:induction false} UndoAllRestores(g: Graph, chs: seq<Change>)
    requires Invertible(g, chs)
    ensures UndoAll(PerformAll(g, chs), RecordedAll(chs)) == g
  {
    if chs != [] {
      var init, ch := chs[..|chs| - 1], chs[|chs| - 1];
      var cs := RecordedAll(chs);
      assert cs[..|cs| - 1] == RecordedAll(init);
      UndoStep(PerformAll(g, init), ch);
      UndoAllRestores(g, init);
    }
  }

  /** Redoing the whole history from its start reproduces the document after the
      last change when every insertion was at the end. */
  lemma {:induction false} RedoAllReproduces(g: Graph, chs: seq<Change>)
    requires InsertsAtEnd(g, chs)
    ensures RedoAll(g, RecordedAll(chs)) == PerformAll(g, chs)
  {
    if chs != [] {
      var init, ch := chs[..|chs| - 1], chs[|chs| - 1];
      var cs := RecordedAll(chs);
      assert cs[..|cs| - 1] == RecordedAll(init);
      RedoAllReproduces(g, init);
      RedoStep(PerformAll(g, init), ch);
    }
  }

  /** Undo all, then redo all, of a history made of insertions at the end, removals
      of the last child, property changes and transactions: undo returns to the
      start and redo comes back to the document after the last change. */
  lemma UndoAllRedoAll(g: Graph, chs: seq<Change>)
    requires Invertible(g, chs) && InsertsAtEnd(g, chs)
    ensures UndoAll(PerformAll(g, chs), RecordedAll(chs)) == g
    ensures RedoAll(UndoAll(PerformAll(g, chs), RecordedAll(chs)), RecordedAll(chs)) == PerformAll(g, chs)
  {
    UndoAllRestores(g, chs);
    RedoAllReproduces(g, chs);
  }
}

=== FILE: undo_manager.dfy ===
/** The undo manager of UndoManager.js: a linear history of commands with a cursor,
    a re-entrancy guard and a transaction buffer. The provider's notifications reach
    it through the three handlers; undo and redo replay one entry against the
    provider's document, which is held here as the value `doc`. */
module History {
  import opened Graphs
  import opened Commands
  import opened Grouper

  /** The notifications the provider raises, with their payloads. */
  datatype Event =
    | StructureAdded(parent: NodeId, child: NodeId)
    | StructureRemoved(parent: NodeId, child: NodeId)
    | PropertyChanged(node: NodeId, oldValues: Props, newValues: Props)

  /** The notification setPropertyValues raises when it writes `values` on node n of g. */
  function Changed(g: Graph, n: NodeId, values: Props): Event
  {
    PropertyChanged(n, map k | k in values && k in PropsOf(g, n) :: PropsOf(g, n)[k], values)
  }

  function GroupNotifications(g: Graph, es: seq<PropEdit>, d: Direction): seq<Event>
    decreases |es|
  {
    if es == [] then []
    else
      [Changed(g, es[0].node, Values(es[0], d))] +
      GroupNotifications(SetProps(g, es[0].node, Values(es[0], d)), es[1..], d)
  }

  /** The notifications the provider raises while it replays command c on g. They
      show what reaches the handlers during a replay; no guarantee of the manager
      depends on them, since Dispatch keeps any sequence of notifications out of
      the history. */
  function Notifications(g: Graph, c: Command, d: Direction): seq<Event>
  {
    match c
    case Add(p, ch) => if d == Backward then [StructureRemoved(p, ch)] else [StructureAdded(p, ch)]
    case Remove(p, ch) => if d == Backward then [StructureAdded(p, ch)] else [StructureRemoved(p, ch)]
    case Prop(e) => [Changed(g, e.node, Values(e, d))]
    case Group(es) => GroupNotifications(g, es, d)
  }

  class UndoManager {
    /** The document of the provider the manager listens to. */
    var doc: Graph
    /** The history; entries up to `current` are applied, the ones after it undone. */
    var stack: seq<Command>
    var current: int
    /** Set while an entry is replayed, so that the replay is not recorded. */
    var locked: bool
    /** Set while a transaction is open. */
    var grouping: bool
    /** The transaction buffer: one entry per node, in insertion order. */
    var groups: seq<PropEdit>

    ghost predicate Valid()
      reads this
    {
      -1 <= current < |stack| && DistinctNodes(groups)
    }

    constructor (prov: Graph)
      ensures Valid()
      ensures doc == prov && stack == [] && current == -1
      ensures !locked && !grouping && groups == []
    {
      doc := prov;
      stack := [];
      current := -1;
      locked := false;
      grouping := false;
      groups := [];
    }

    /** Drops the redo branch, appends c and moves the cursor onto it. */
    method Push(c: Command)
      requires Valid()
      modifies this`stack, this`current
      ensures Valid()
      ensures stack == old(stack[..current + 1]) + [c]
      ensures current == old(current) + 1 == |stack| - 1
    {
      stack := stack[..current + 1] + [c];
      current := current + 1;
    }

    method OnStructureAdded(parent: NodeId, child: NodeId)
      requires Valid()
      modifies this`stack, this`current
      ensures Valid()
      ensures locked ==> stack == old(stack) && current == old(current)
      ensures !locked ==> stack == old(stack[..current + 1]) + [Add(parent, child)]
      ensures !locked ==> current == old(current) + 1 == |stack| - 1
    {
      if locked {
        return;
      }
      Push(Add(parent, child));
    }

    method OnStructureRemoved(parent: NodeId, child: NodeId)
      requires Valid()
      modifies this`stack, this`current
      ensures Valid()
      ensures locked ==> stack == old(stack) && current == old(current)
      ensures !locked ==> stack == old(stack[..current + 1]) + [Remove(parent, child)]
      ensures !locked ==> current == old(current) + 1 == |stack| - 1
    {
      if locked {
        return;
      }
      Push(Remove(parent, child));
    }

    method OnPropertyChanged(node: NodeId, oldValues: Props, newValues: Props)
      requires Valid()
      modifies this`stack, this`current, this`groups
      ensures Valid()
      ensures locked ==> stack == old(stack) && current == old(current) && groups == old(groups)
      ensures !locked && grouping ==>
        stack == old(stack) && current == old(current) &&
        groups == Record(old(groups), PropEdit(node, oldValues, newValues))
      ensures !locked && !grouping ==>
        groups == old(groups) &&
        stack == old(stack[..current + 1]) + [Prop(PropEdit(node, oldValues, newValues))] &&
        current == old(current) + 1 == |stack| - 1
    {
      if locked {
        return;
      }
      if grouping {
        match Find(groups, node)
        case None =>
          assert Record(groups, PropEdit(node, oldValues, newValues)) == groups + [PropEdit(node, oldValues, newValues)];
          groups := groups + [PropEdit(node, oldValues, newValues)];
        case Some(x) =>
          var merged := MergeKeys(x.newValues, newValues);
          assert merged == x.newValues + newValues;
          groups := Update(groups, x.(newValues := merged));
      } else {
        Push(Prop(PropEdit(node, oldValues, newValues)));
      }
    }

    /** The provider's dispatch of one notification to the matching handler. */
    method Notify(e: Event)
      requires Valid()
      modifies this`stack, this`current, this`groups
      ensures Valid()
      ensures locked ==> stack == old(stack) && current == old(current) && groups == old(groups)
    {
      match e
      case StructureAdded(p, ch) => OnStructureAdded(p, ch);
      case StructureRemoved(p, ch) => OnStructureRemoved(p, ch);
      case PropertyChanged(n, o, v) => OnPropertyChanged(n, o, v);
    }

    /** Delivers the notifications of a replay; the guard keeps all of them out of
        the history. */
    method Dispatch(events: seq<Event>)
      requires Valid() && locked
      modifies this`stack, this`current, this`groups
      ensures Valid()
      ensures stack == old(stack) && current == old(current) && groups == old(groups)
    {
      for i := 0 to |events|
        invariant Valid()
        invariant stack == old(stack) && current == old(current) && groups == old(groups)
      {
        Notify(events[i]);
      }
    }

    method Undo()
      requires Valid()
      modifies this
      ensures Valid()
      ensures stack == old(stack) && grouping == old(grouping) && groups == old(groups)
      ensures old(current) < 0 ==> current == old(current) && doc == old(doc) && locked == old(locked)
      ensures old(current) >= 0 ==>
        current == old(current) - 1 && !locked &&
        doc == ApplyUndo(old(doc), old(stack[current]))
    {
      if current < 0 {
        return;
      }
      locked := true;
      var c := stack[current];
      var events := Notifications(doc, c, Backward);
      doc := ApplyUndo(doc, c);
      Dispatch(events);
      current := current - 1;
      locked := false;
    }

    method Redo()
      requires Valid()
      modifies this
      ensures Valid()
      ensures stack == old(stack) && grouping == old(grouping) && groups == old(groups)
      ensures old(current) + 1 >= |stack| ==>
        current == old(current) && doc == old(doc) && locked == old(locked)
      ensures old(current) + 1 < |stack| ==>
        current == old(current) + 1 && !locked &&
        doc == ApplyRedo(old(doc), stack[current])
    {
      if current + 1 >= |stack| {
        return;
      }
      locked := true;
      current := current + 1;
      var c := stack[current];
      var events := Notifications(doc, c, Forward);
      doc := ApplyRedo(doc, c);
      Dispatch(events);
      locked := false;
    }

    /** Opens a transaction; an open one is not rejected, its buffer is dropped. */
    method StartGrouping()
      requires Valid()
      modifies this`grouping, this`groups
      ensures Valid()
      ensures grouping && groups == []
    {
      grouping := true;
      groups := [];
    }

    /** Closes the transaction and pushes its buffer as one entry, an empty buffer too. */
    method StopGrouping()
      requires Valid()
      modifies this`grouping, this`groups, this`stack, this`current
      ensures Valid()
      ensures !grouping && groups == []
      ensures stack == old(stack[..current + 1]) + [Group(old(groups))]
      ensures current == old(current) + 1 == |stack| - 1
    {
      grouping := false;
      var buffered := groups;
      groups := [];
      Push(Group(buffered));
    }
  }
}

/** Add / edit / undo / redo scenarios: node 1 is added under root 0 and its title
    changed from x to y; the edits are undone and redone, and a new edit cuts the
    redo branch. The add / edit / undo / redo scenarios change the provider's
    document first and then notify the manager; TruncateScenario and GroupScenario
    only exercise the history. */
module Walkthrough {
  import opened Graphs
  import opened Commands
  import opened Grouper
  import opened History

  method UndoScenario()
  {
    var start := Graph(map["0" := [], "1" := []], map["0" := map[], "1" := map["title" := "x"]]);
    var m := new UndoManager(start);

    m.doc := AppendChild(m.doc, "0", "1");
    m.OnStructureAdded("0", "1");
    assert m.stack == [Add("0", "1")] && m.current == 0;

    m.doc := SetProps(m.doc, "1", map["title" := "y"]);
    m.OnPropertyChanged("1", map["title" := "x"], map["title" := "y"]);
    assert |m.stack| == 2 && m.current == 1;

    var edited := m.doc;
    m.Undo();
    assert m.doc == SetProps(edited, "1", map["title" := "x"]);
    assert PropsOf(m.doc, "1")["title"] == "x" && m.current == 0;
  }

  /** Undoing the add takes the child out again; undo with nothing left to undo
      changes nothing; redo re-applies the add. */
  method RedoScenario()
  {
    var start := Graph(map["0" := [], "1" := []], map[]);
    var m := new UndoManager(start);

    m.doc := AppendChild(m.doc, "0", "1");
    m.OnStructureAdded("0", "1");
    assert m.stack == [Add("0", "1")] && m.current == 0;
    var added := m.doc;
    m.Undo();
    assert m.doc == DeleteChild(added, "1");
    assert added.children["0"] == ["1"] && Without(["1"], "1") == [];
    assert ChildrenOf(m.doc, "0") == [] && m.current == -1;
    var before := m.doc;
    m.Undo();
    assert m.doc == before && m.current == -1;

    m.Redo();
    assert m.doc == AppendChild(before, "0", "1");
    assert ChildrenOf(m.doc, "0") == ChildrenOf(before, "0") + ["1"] && m.current == 0;
  }

  /** After one undo, a new edit drops the redo branch. */
  method TruncateScenario(start: Graph)
  {
    var m := new UndoManager(start);
    m.OnStructureAdded("0", "1");
    m.OnPropertyChanged("1", map["title" := "x"], map["title" := "y"]);
    m.Undo();
    assert m.current == 0 && |m.stack| == 2;
    var kept := m.stack[..1];
    m.OnStructureRemoved("0", "1");
    assert m.stack == kept + [Remove("0", "1")] && m.current == 1;
    m.Redo();
    assert m.current == 1;
  }

  /** Node 2 is inserted at the front of root 0, before node 1. Undo takes it out;
      redo appends it, so it comes back after node 1. */
  method InsertFrontScenario()
  {
    var start := Graph(map["0" := ["1"]], map[]);
    var m := new UndoManager(start);

    assert "1" != "2" by { assert "1"[0] != "2"[0]; }
    m.doc := Perform(m.doc, Inserted("0", "2", 0));
    m.OnStructureAdded("0", "2");
    assert m.stack == [Add("0", "2")] && ChildrenOf(m.doc, "0") == ["2", "1"];

    m.Undo();
    UndoAfterEdit(start, Inserted("0", "2", 0));
    assert m.doc == start;

    m.Redo();
    assert ChildrenOf(m.doc, "0") == ["1", "2"];
  }

  /** Inside a transaction node 1's title goes from x to y and then to z: nothing is
      pushed until stopGrouping, which pushes one group entry holding the merged
      change, the buffer of the two changes. */
  method GroupScenario(start: Graph)
  {
    var m := new UndoManager(start);
    var e1 := PropEdit("1", map["title" := "x"], map["title" := "y"]);
    var e2 := PropEdit("1", map["title" := "y"], map["title" := "z"]);

    m.StartGrouping();
    m.OnPropertyChanged("1", map["title" := "x"], map["title" := "y"]);
    m.OnPropertyChanged("1", map["title" := "y"], map["title" := "z"]);
    assert m.stack == [] && m.current == -1;

    m.StopGrouping();
    assert [e1, e2][..1] == [e1];
    assert Buffer([e1]) == Record([], e1);
    assert m.stack == [Group(Buffer([e1, e2]))] && m.current == 0;
  }
}
